=== FILE: README.md ===
# Delegated authentication of the task service, in Dafny

This project models the authentication core of the task service's HTTP API (`handler/auth.go`).
The core has three parts:

- **The start handler** (`GetOauthHandler`). It mints a random session identifier and derives
  the CSRF/state token from it with HMAC-SHA1. It stores `state -> session id` in the shared
  `TokenStorage` for five minutes. It answers with the provider's authorization URL, which
  carries that state.
- **The verify handler** (`GetOauthVerifyHandler`). It checks `code` and `state` and looks the
  state up. It deletes the state exactly once and checks the CSRF token. It then has the
  provider exchange the code and signs a bearer token (a JWT). The token's claims are
  `iss = "demoapp"`, `iat`, `exp` and `access_token`. Its signing key is derived from the
  embedded access token followed by the shared secret ("key from claim").
- **The bearer middleware** (`GetJwtAuthHandler`). It checks the `Bearer` prefix of the
  `Authorization` header. Its key function checks the signing-method family, the issuer, the
  access-token claim and the expiry, in that order, then rebuilds the key from the claim.

Foreign pieces are inputs:

- HMAC-SHA1 is an arbitrary function of a key and a message (`Lib.Hmac`).
- The random source is a `Result`: a session id or an error message.
- jwt-go's decoder and its post-key validation are the functions of `Jwt.JwtLibrary`. The
  validation takes the clock, because jwt-go checks the token's own `exp` and `nbf` claims.
- jwt-go's signer is `Oauth.Signer`.
- The provider's code exchange is `Oauth.Exchange`.
- The clock is a `now` parameter, in unix seconds.

`TokenStorage` is a class, `TokenStorage.Store`. It keeps a map of entries and a ghost log of
its `Set` and `Delete` calls. The two handlers, `Oauth.Start` and `Oauth.Verify`, are
module-level methods that take the store as a parameter and change it through its methods.

Strings model Go strings, which are byte strings: one Dafny character stands for one byte.
So the length test and the slices of the `Authorization` header count bytes, and "any
character" after `Bearer` means any byte.

Modules: `Wrappers` (Option, Result), `Lib` (the HMAC argument convention of `lib/strings.go`),
`Api` (status codes, `ApiError`), `TokenStorage`, `Csrf`, `Jwt` and `Oauth`.

Points where the model follows the code closely:

- The CSRF MAC is keyed with the session identifier, and the shared session secret is the
  message. `generateCsrfToken` calls `HMACSha1(sessionSecret, sessionId)`, and `HMACSha1(s, k)`
  keys with `k`.
- A bearer token is still accepted in the second its `exp` names. The check rejects only
  `exp < now`.
- A missing or non-numeric `exp` counts as 0. It is not rejected outright.
- The signing key is the plain concatenation `access_token ++ secret`. It is not an HMAC.
- A provider token without an expiry gets no five-minute default. `exp` is the provider's
  expiry as given.
- The success body carries the field `jwt_token`.
- The middleware answers 401 even after a successful parse (see Findings).

## Model

| member | source | states |
|---|---|---|
| `Csrf.GenerateCsrfToken` | handler/auth.go:163-165 | The state token is the HMAC keyed with the session id, over the session secret as message. |
| `Csrf.IsCsrfTokenMatchSession` | handler/auth.go:167-169 | True exactly when the presented token equals the HMAC keyed with the stored session id over the secret. |
| `Csrf.MintedTokenMatches` | handler/auth.go:91-93 | The token the start handler stores for a session always matches that session at verify time. |
| `TokenStorage.Store.Set` | handler/auth.go:22 | Stores the value under the key with its TTL, replaces any earlier entry, and logs exactly one `Set`. |
| `TokenStorage.Store.Get` | handler/auth.go:23 | Reports a hit exactly when the key is present and returns its value. A miss yields a non-string. |
| `TokenStorage.Store.Delete` | handler/auth.go:24 | Removes that key and no other, and logs exactly one `Delete`. |
| `Jwt.GetJwtSignature` | handler/auth.go:156-161 | The key is the access token followed by the secret: its prefix is the token and its suffix is the secret. |
| `Jwt.SignatureKeyInjective` | handler/auth.go:156-161 | For a fixed secret, equal keys come only from equal access tokens. |
| `Jwt.BearerToken` | handler/auth.go:36-40 | A credential exists iff the header is longer than 7 characters and starts with case-sensitive `Bearer`. It is then the non-empty rest after 7 characters. |
| `Jwt.BearerAnySeparator` | handler/auth.go:39-40 | The 7th character is never checked: `Bearer` + any character + a non-empty token yields that token. |
| `Jwt.KeyFunc` | handler/auth.go:42-62 | Accepts iff HMAC family, `iss` is the string `demoapp`, `access_token` is a string, and `now <= exp`. On success returns the key rebuilt from the claim. Each failing check, first in order, gives its own error. |
| `Jwt.MissingExpiryCountsAsZero` | handler/auth.go:57-58 | Without a numeric `exp`, a token otherwise valid passes only when `now <= 0`. |
| `Jwt.Parse` | handler/auth.go:40-63 | Parsing succeeds iff the token decodes, the key function accepts it and the library validates it with that key at the current clock. A key-function error is the parse error. |
| `Jwt.IssuedClaims` | handler/auth.go:138-142 | The minted claims are exactly `iss`, `iat`, `exp` and `access_token`: `iss = demoapp`, `iat` = the issue time, `exp` = the provider expiry, and the provider's access token. |
| `Jwt.MintedLifetime` | handler/auth.go:138-142 | A minted token has no `nbf` claim, so the lifetime jwt-go's own checks accept is exactly the clock readings up to its `exp`. |
| `Jwt.IssuedTokenAccepted` | handler/auth.go:138-145 | A minted token passes every key-function check whenever `now <= exp`. The key function then returns exactly the signing key. |
| `Jwt.IssuedTokenExpires` | handler/auth.go:57-60 | A minted token is refused with the expiry error once `exp < now`. |
| `Jwt.AlteredAccessTokenChangesKey` | handler/auth.go:52-62 | Replacing the `access_token` claim never yields the key the original token was signed with. |
| `Jwt.JwtAuthHandler` | handler/auth.go:28-74 | A WebSocket upgrade passes; every other request ends in a 401 error. A 401 body is written when the prefix check fails ("no or incorrect authorization token provided") or parsing fails (its error). No body is written after a successful parse. |
| `Jwt.MintedTokenRefusedAsWritten` | handler/auth.go:65-69 | The middleware as written refuses a minted token with 401 at every clock reading. Up to its `exp`, when the signature is valid, it writes no body. |
| `Jwt.JwtAuthHandlerIntended` | handler/auth.go:28-74 | Corrected middleware: a request passes iff it is a WebSocket upgrade or its token parses. Otherwise 401 with a body. |
| `Jwt.MintedTokenAdmittedWhenIntended` | handler/auth.go:62-69 | With the corrected middleware a minted token passes while `now <= exp`. After `exp` it is refused with the expiry message. |
| `Oauth.Start` | handler/auth.go:76-98 | Random failure: 500 with its message and the store untouched. Otherwise exactly one `Set(csrf, session id, 5 min)`, and a 200 whose URL state is that same `csrf`. |
| `Oauth.StoredSession` | handler/auth.go:123-128 | A session is recovered iff the state is present and its value is a string. |
| `Oauth.VerifyResponse` | handler/auth.go:107-153 | Empty `code`: 400 with `error_message` or "no oauth code was provided". Empty `state`: 400 "no state was provided". Miss or non-string: 410 expired. A hit whose token mismatches: 410 "CSRF attack detected", never expired. Exchange error: 500. Signing error: 500 "could not sign token: …". Else 200 with the token and `expires` = provider expiry. |
| `Oauth.VerifyStore` | handler/auth.go:117-121 | Once `code` and `state` are both present, the state's entry is gone afterwards. No other key changes, and nothing changes otherwise. |
| `Oauth.Verify` | handler/auth.go:100-154 | Answers `VerifyResponse` of the store before the call. Leaves the store as `VerifyStore` says. Logs exactly one `Delete(state)` when both parameters are present, and no call otherwise. |
| `Oauth.VerifyRun` | handler/auth.go:117-128 | Verify attempts handled one after another on one store: one answer per attempt, the first computed on the initial store. |
| `Oauth.AbsentStateAlwaysExpired` | handler/auth.go:124-125 | Once a state has no entry, every later attempt presenting it (with a code) is answered 410 expired, whatever other requests are handled in between. |
| `Oauth.StateUsedAtMostOnce` | handler/auth.go:117-128 | In any run of verify requests, an attempt with a code that presents a state an earlier attempt with a code already presented is 410 expired, whatever the earlier outcome and whatever requests came in between. |
| `Oauth.VerifiedTokenIsMinted` | handler/auth.go:138-151 | The token a successful verify answers with, sent as `Bearer <token>`, decodes to the claims minted for the provider's token. Its `expires` is that token's expiry. |
| `Oauth.VerifiedTokenRefusedAsWritten` | handler/auth.go:65-69 | End to end: the token a successful verify answers with, sent as `Bearer <token>`, is always refused with 401 by the middleware as written. Up to its `expires` second no body is written. |
| `Oauth.VerifiedTokenAdmittedWhenIntended` | handler/auth.go:138-151 | End to end: with the corrected middleware, that token is admitted up to its `expires` second, and refused with the expiry message after it. Both hold whenever jwt-go's signer, decoder and validation agree on minted tokens. |
| `Oauth.Replay` | handler/auth.go:117-128 | Verifying the same state twice: the first answer is the verify answer on the initial store and the second is 410 expired. Afterwards exactly that state is gone, and exactly two `Delete(state)` calls are logged. |
| `Oauth.Handshake` | handler/auth.go:86-151 | Start then verify with the URL's state: the state is the session's CSRF token and is consumed. The store ends as before minus that state, after exactly `Set(state, session id, 5 min)` then `Delete(state)`. With a signed token the answer is 200, `expires` equals the `exp` claim, and the key function accepts the token with its signing key while `now <= exp`. |

## Left out

- Concurrency: the model runs handlers one at a time. In the code the `Delete` is deferred
  until the verify handler returns, after the provider exchange. Two concurrent verify calls
  with the same state can therefore both find the entry. The sequential model does not capture
  that window.
- Store expiry: TTL expiry, the background sweep and eviction belong to the concrete cache,
  which is not part of this model. An entry records its TTL but never expires, so an expired
  state is modelled as an absent one.
- The deferred `Set` of the start handler runs after the response is written. The model
  performs it last but does not model the response write as an event.
- `lib/strings.go`: the SHA-1/HMAC computation, hex formatting, random bytes and base64 encoding
  are foreign. HMAC is an uninterpreted function, and the random session id or its error is an
  input. Session-id uniqueness is not modelled.
- jwt-go internals are foreign and enter as the functions of `Jwt.JwtLibrary` and
  `Oauth.Signer`. These are segment decoding, HS256 signing and signature checking, and the
  library's own `exp`/`nbf` checks against the clock it is given.
- The `exp` claim is a float64 in the code. It is modelled as an integer, without float
  truncation.
- The oauth2 library: `AuthCodeURL` is modelled by the state and access type it is given
  (`Oauth.AuthCodeUrl`). The URL string itself is not rendered. `Exchange` is an opaque
  function of the code that may fail.
- echo plumbing: the error returned by `c.JSON` and the request context are not modelled. A
  handler's answer is its status and body.
- `Oauth.Handshake` requires a non-empty state token, because an HMAC-SHA1 hex digest is 40
  characters. The uninterpreted MAC does not know that.
- `application/middleware.go`, `application/routes.go`, `application/application.go`,
  `application.go` and `web/main.go`: bootstrap and wiring, not part of this model. The
  `application` package does not compile as written (`application/middleware.go:24` and `:27`,
  `application/routes.go:11` and `:19-35`), and `web/main.go` imports that package.
- The end-to-end lemmas in `Oauth` assume that jwt-go's signer, decoder and validation agree
  on the tokens the verify handler mints (`Oauth.Coherent`). Such a token, once signed, is
  non-empty and decodes to the minted claims. It validates with its key at every clock reading
  within its lifetime (`Jwt.WithinLifetime`: not before a numeric `nbf`, not after `exp`).
  Minted tokens carry no `nbf`, so that is every reading up to `exp`. Nothing is assumed about
  other tokens or about readings after `exp`. jwt-go itself is not part of this model.
- `handler/task.go` and `model/task.go`: task persistence, not part of this model.

## Findings

| source | as written | input that shows it | evidently intended | confidence | as-written member | corrected member |
|---|---|---|---|---|---|---|
| handler/auth.go:65-69 | After a successful `jwt.Parse` the middleware still returns `echo.NewHTTPError(401)`, so only WebSocket upgrades ever pass | `Authorization: Bearer <token minted by the verify handler>`, with a valid signature, before its `exp` | return `nil` and let the request through when parsing succeeds | high; not executed | `Jwt.MintedTokenRefusedAsWritten` | `Jwt.MintedTokenAdmittedWhenIntended` |

=== FILE: api.dfy ===
/** Error payloads and the HTTP status codes the auth handlers answer with. */
module Api {

  const StatusOK := 200
  const StatusBadRequest := 400
  const StatusUnauthorized := 401
  const StatusGone := 410
  const StatusInternalServerError := 500

  /** `ApiError{Message}`: the optional `data` field is never filled in by the auth handlers. */
  datatype ApiError = ApiError(message: string)
}

=== FILE: csrf.dfy ===
/** The anti-forgery state token of the OAuth handshake (handler/auth.go). */
module Csrf {
  import opened Lib

  /** `generateCsrfToken(sessionId, sessionSecret)` calls `HMACSha1(sessionSecret, sessionId)`,
      so the MAC is keyed with the session identifier and authenticates the shared secret. */
  function GenerateCsrfToken(hmac: Hmac, sessionId: string, sessionSecret: string): (token: string)
    ensures token == hmac(MacInput(key := sessionId, message := sessionSecret))
  {
    HmacSha1(hmac, sessionSecret, sessionId)
  }

  /** Whether the token the client returned is the one this session would have been given. */
  function IsCsrfTokenMatchSession(hmac: Hmac, csrfToken: string, sessionId: string, sessionSecret: string): (matches: bool)
    ensures matches <==> csrfToken == hmac(MacInput(key := sessionId, message := sessionSecret))
  {
    csrfToken == GenerateCsrfToken(hmac, sessionId, sessionSecret)
  }

  /** The token minted for a session always matches that session, whatever the MAC is. */
  lemma MintedTokenMatches(hmac: Hmac, sessionId: string, sessionSecret: string)
    ensures IsCsrfTokenMatchSession(hmac, GenerateCsrfToken(hmac, sessionId, sessionSecret), sessionId, sessionSecret)
  {
  }
}

=== FILE: jwt.dfy ===
/** The bearer-token side of handler/auth.go: the key-from-claim derivation, the claims the
    verify handler mints, the key function handed to jwt-go, and the JWT middleware.
    jwt-go's own work (splitting and decoding the three segments, its expiry and not-before
    checks, and the HMAC signature check) is foreign and enters as `JwtLibrary`. */
module Jwt {
  import opened Wrappers
  import opened Api

  const Issuer := "demoapp"
  const Bearer := "Bearer"

  /** Value of the `Upgrade` header that exempts a request from the middleware. */
  const WebSocket := "websocket"

  const IssuerMissing := "issuer not provided"
  const IssuerIncorrect := "incorrect issuer provided"
  const AccessTokenMissing := "access token not provided"
  const AccessTokenExpired := "access token has expired, try to authenticate again"
  const NoTokenMessage := "no or incorrect authorization token provided"

  /** A decoded JSON claim: strings, numbers (unix seconds here), and everything else. */
  datatype Claim = JString(s: string) | JNumber(n: int) | JOther

  type Claims = map<string, Claim>

  /** The algorithm families jwt-go knows; only the HMAC family is accepted. */
  datatype Family = HmacFamily | RsaFamily | EcdsaFamily

  datatype SigningMethod = SigningMethod(alg: string, family: Family)

  const HS256 := SigningMethod("HS256", HmacFamily)

  /** A decoded token: its signing method (from the `alg` header) and its claims. */
  datatype Token = Token(signingMethod: SigningMethod, claims: Claims)

  /** jwt-go, as the middleware uses it: `decode` turns the compact string into a token or
      a message; `validate(raw, key, now)` performs the checks jwt-go runs after the key
      function (its own time checks against the clock `now` and the signature check with `key`)
      and gives a message on failure. */
  datatype JwtLibrary = JwtLibrary(
    decode: string -> Result<Token, string>,
    validate: (string, string, int) -> Option<string>)

  /** The request headers the middleware reads; a missing header reads as "". */
  datatype Request = Request(upgrade: string, authorization: string)

  /** A JSON body written to the response before the handler returns. */
  datatype Written = Written(status: int, body: ApiError)

  /** What the middleware returns: `nil` lets the request through, an `HTTPError` stops it. */
  datatype GateResult = PassThrough | HttpError(status: int, written: Option<Written>)

  /** A claim read with a Go string type assertion: absent or not a string gives None. */
  function StringClaim(claims: Claims, name: string): Option<string>
  {
    if name in claims && claims[name].JString? then Some(claims[name].s) else None
  }

  /** The `exp` claim read with a float64 type assertion: absent or not a number counts as 0. */
  function ExpirationTime(claims: Claims): int
  {
    if "exp" in claims && claims["exp"].JNumber? then claims["exp"].n else 0
  }

  /** The lifetime jwt-go's own claim checks accept at clock `now`: not before a numeric `nbf`,
      and not after `exp` (a missing `exp` is read as 0 here, which only narrows the window). */
  predicate WithinLifetime(claims: Claims, now: int)
  {
    && (("nbf" in claims && claims["nbf"].JNumber?) ==> claims["nbf"].n <= now)
    && now <= ExpirationTime(claims)
  }

  /** `getJwtSignature(jwtSecret, accessToken)`: the signing key is the access token followed
      by the shared secret, so every token is signed with a key of its own. */
  function GetJwtSignature(jwtSecret: string, accessToken: string): (key: string)
    ensures |key| == |accessToken| + |jwtSecret|
    ensures key[..|accessToken|] == accessToken && key[|accessToken|..] == jwtSecret
  {
    accessToken + jwtSecret
  }

  /** For a fixed secret, distinct access tokens give distinct signing keys. */
  lemma SignatureKeyInjective(jwtSecret: string, a: string, b: string)
    requires GetJwtSignature(jwtSecret, a) == GetJwtSignature(jwtSecret, b)
    ensures a == b
  {
  }

  /** The credential the middleware hands to the parser: the header with its first seven
      characters dropped, provided it is longer than that and starts with `Bearer`. */
  function BearerToken(auth: string): (token: Option<string>)
    ensures token.Some? <==> |auth| > |Bearer| + 1 && auth[..|Bearer|] == Bearer
    ensures token.Some? ==> token.value != [] && auth == Bearer + [auth[|Bearer|]] + token.value
  {
    if |auth| > |Bearer| + 1 && auth[..|Bearer|] == Bearer then Some(auth[|Bearer| + 1..]) else None
  }

  /** The character after `Bearer` is never looked at: any separator is accepted. */
  lemma BearerAnySeparator(separator: char, credential: string)
    requires credential != []
    ensures BearerToken(Bearer + [separator] + credential) == Some(credential)
  {
  }

  /** The key function passed to `jwt.Parse`. Its checks run in a fixed order, each with its
      own error; when all pass it rebuilds the signing key from the `access_token` claim. */
  function KeyFunc(jwtSecret: string, now: int, token: Token): (r: Result<string, string>)
    ensures r.Success? <==>
      && token.signingMethod.family == HmacFamily
      && StringClaim(token.claims, "iss") == Some(Issuer)
      && StringClaim(token.claims, "access_token").Some?
      && now <= ExpirationTime(token.claims)
    ensures r.Success? ==> r.value == GetJwtSignature(jwtSecret, StringClaim(token.claims, "access_token").value)
    ensures token.signingMethod.family != HmacFamily ==>
      r == Failure("Unexpected signing method: " + token.signingMethod.alg)
    ensures (token.signingMethod.family == HmacFamily && StringClaim(token.claims, "iss").None?) ==>
      r == Failure(IssuerMissing)
    ensures (token.signingMethod.family == HmacFamily && StringClaim(token.claims, "iss").Some?
             && StringClaim(token.claims, "iss") != Some(Issuer)) ==>
      r == Failure(IssuerIncorrect)
    ensures (token.signingMethod.family == HmacFamily && StringClaim(token.claims, "iss") == Some(Issuer)
             && StringClaim(token.claims, "access_token").None?) ==>
      r == Failure(AccessTokenMissing)
    ensures (token.signingMethod.family == HmacFamily && StringClaim(token.claims, "iss") == Some(Issuer)
             && StringClaim(token.claims, "access_token").Some? && ExpirationTime(token.claims) < now) ==>
      r == Failure(AccessTokenExpired)
  {
    if token.signingMethod.family != HmacFamily then
      Failure("Unexpected signing method: " + token.signingMethod.alg)
    else
      match StringClaim(token.claims, "iss")
      case None => Failure(IssuerMissing)
      case Some(iss) =>
        if iss != Issuer then Failure(IssuerIncorrect)
        else
          match StringClaim(token.claims, "access_token")
          case None => Failure(AccessTokenMissing)
          case Some(accessToken) =>
            if ExpirationTime(token.claims) < now then Failure(AccessTokenExpired)
            else Success(GetJwtSignature(jwtSecret, accessToken))
  }

  /** `jwt.Parse(raw, keyFunc)`: decode, ask the key function for the key, then let the
      library validate with that key at clock `now`. A token is returned only if all three
      succeed. */
  function Parse(lib: JwtLibrary, raw: string, now: int, keyFunc: Token -> Result<string, string>): (r: Result<Token, string>)
    ensures r.Success? <==>
      lib.decode(raw).Success? && keyFunc(lib.decode(raw).value).Success?
      && lib.validate(raw, keyFunc(lib.decode(raw).value).value, now).None?
    ensures r.Success? ==> r == lib.decode(raw)
    ensures lib.decode(raw).Success? && keyFunc(lib.decode(raw).value).Failure? ==>
      r == Failure(keyFunc(lib.decode(raw).value).error)
  {
    match lib.decode(raw)
    case Failure(e) => Failure(e)
    case Success(token) =>
      match keyFunc(token)
      case Failure(e) => Failure(e)
      case Success(key) =>
        match lib.validate(raw, key, now)
        case Some(e) => Failure(e)
        case None => Success(token)
  }

  /** The claims the verify handler signs for a provider access token. */
  function IssuedClaims(accessToken: string, issuedAt: int, expiry: int): (claims: Claims)
    ensures StringClaim(claims, "iss") == Some(Issuer)
    ensures StringClaim(claims, "access_token") == Some(accessToken)
    ensures ExpirationTime(claims) == expiry
    ensures claims.Keys == {"iss", "iat", "exp", "access_token"} && claims["iat"] == JNumber(issuedAt)
  {
    map["iss" := JString(Issuer), "iat" := JNumber(issuedAt), "exp" := JNumber(expiry),
        "access_token" := JString(accessToken)]
  }

  /** A minted token carries no `nbf`: its lifetime ends with its `exp` and has no start. */
  lemma MintedLifetime(accessToken: string, issuedAt: int, expiry: int, now: int)
    ensures "nbf" !in IssuedClaims(accessToken, issuedAt, expiry)
    ensures WithinLifetime(IssuedClaims(accessToken, issuedAt, expiry), now) <==> now <= expiry
  {
  }

  function IssuedToken(accessToken: string, issuedAt: int, expiry: int): Token
  {
    Token(HS256, IssuedClaims(accessToken, issuedAt, expiry))
  }

  /** Round trip: a minted token passes every check up to and including its expiry second,
      and the key function then yields exactly the key it was signed with. */
  lemma IssuedTokenAccepted(jwtSecret: string, accessToken: string, issuedAt: int, expiry: int, now: int)
    requires now <= expiry
    ensures KeyFunc(jwtSecret, now, IssuedToken(accessToken, issuedAt, expiry))
         == Success(GetJwtSignature(jwtSecret, accessToken))
  {
  }

  /** After its expiry second a minted token is refused as expired. */
  lemma IssuedTokenExpires(jwtSecret: string, accessToken: string, issuedAt: int, expiry: int, now: int)
    requires expiry < now
    ensures KeyFunc(jwtSecret, now, IssuedToken(accessToken, issuedAt, expiry)) == Failure(AccessTokenExpired)
  {
  }

  /** A token without a numeric `exp` claim is treated as expiring at second 0: it passes the
      expiry check only at a clock reading of 0 or before. */
  lemma MissingExpiryCountsAsZero(jwtSecret: string, now: int, token: Token)
    requires token.signingMethod.family == HmacFamily
    requires StringClaim(token.claims, "iss") == Some(Issuer)
    requires StringClaim(token.claims, "access_token").Some?
    requires "exp" !in token.claims || !token.claims["exp"].JNumber?
    ensures KeyFunc(jwtSecret, now, token).Success? <==> now <= 0
  {
  }

  /** A token whose `access_token` claim was replaced yields a key other than the one the
      original was signed with, so the original signature does not carry over. */
  lemma AlteredAccessTokenChangesKey(
    jwtSecret: string, accessToken: string, altered: string, issuedAt: int, expiry: int, now: int)
    requires altered != accessToken
    ensures KeyFunc(jwtSecret, now, IssuedToken(altered, issuedAt, expiry))
         != Success(GetJwtSignature(jwtSecret, accessToken))
  {
  }

  /** `GetJwtAuthHandler(jwtSecret)` as written: a WebSocket upgrade passes; every other request
      ends in a 401 error, after a 401 JSON body when the prefix check or the parse fails. */
  function JwtAuthHandler(jwtSecret: string, lib: JwtLibrary, now: int, req: Request): (g: GateResult)
    ensures g.PassThrough? <==> req.upgrade == WebSocket
    ensures g.HttpError? ==> g.status == StatusUnauthorized
    ensures g.HttpError? && BearerToken(req.authorization).None? ==>
      g.written == Some(Written(StatusUnauthorized, ApiError(NoTokenMessage)))
    ensures g.HttpError? && BearerToken(req.authorization).Some? ==>
      var parsed := Parse(lib, BearerToken(req.authorization).value, now, t => KeyFunc(jwtSecret, now, t));
      g.written == if parsed.Failure? then Some(Written(StatusUnauthorized, ApiError(parsed.error))) else None
  {
    if req.upgrade == WebSocket then PassThrough
    else
      match BearerToken(req.authorization)
      case None => HttpError(StatusUnauthorized, Some(Written(StatusUnauthorized, ApiError(NoTokenMessage))))
      case Some(raw) =>
        var parsed := Parse(lib, raw, now, t => KeyFunc(jwtSecret, now, t));
        HttpError(StatusUnauthorized,
          if parsed.Failure? then Some(Written(StatusUnauthorized, ApiError(parsed.error))) else None)
  }

  /** The request a client sends with a token minted by the verify handler, where the library
      decodes it to the minted claims and its signature checks out with the derived key. */
  predicate IsMintedBearerRequest(jwtSecret: string, lib: JwtLibrary, now: int, req: Request,
                                  accessToken: string, issuedAt: int, expiry: int)
  {
    && req.upgrade != WebSocket
    && BearerToken(req.authorization).Some?
    && lib.decode(BearerToken(req.authorization).value) == Success(IssuedToken(accessToken, issuedAt, expiry))
    && (WithinLifetime(IssuedClaims(accessToken, issuedAt, expiry), now) ==>
          lib.validate(BearerToken(req.authorization).value, GetJwtSignature(jwtSecret, accessToken), now).None?)
  }

  /** As written, a minted token is always refused with 401, and up to its expiry (a valid,
      unexpired token) no body is written. */
  lemma MintedTokenRefusedAsWritten(jwtSecret: string, lib: JwtLibrary, req: Request,
                                    accessToken: string, issuedAt: int, expiry: int, now: int)
    requires IsMintedBearerRequest(jwtSecret, lib, now, req, accessToken, issuedAt, expiry)
    ensures JwtAuthHandler(jwtSecret, lib, now, req).HttpError?
    ensures now <= expiry ==> JwtAuthHandler(jwtSecret, lib, now, req) == HttpError(StatusUnauthorized, None)
  {
  }

  /** The middleware as evidently intended: a request whose token parses goes through. */
  function JwtAuthHandlerIntended(jwtSecret: string, lib: JwtLibrary, now: int, req: Request): (g: GateResult)
    ensures g.PassThrough? <==>
      req.upgrade == WebSocket
      || (BearerToken(req.authorization).Some?
          && Parse(lib, BearerToken(req.authorization).value, now, t => KeyFunc(jwtSecret, now, t)).Success?)
    ensures g.HttpError? ==> g.status == StatusUnauthorized && g.written.Some?
  {
    if req.upgrade == WebSocket then PassThrough
    else
      match BearerToken(req.authorization)
      case None => HttpError(StatusUnauthorized, Some(Written(StatusUnauthorized, ApiError(NoTokenMessage))))
      case Some(raw) =>
        var parsed := Parse(lib, raw, now, t => KeyFunc(jwtSecret, now, t));
        if parsed.Success? then PassThrough
        else HttpError(StatusUnauthorized, Some(Written(StatusUnauthorized, ApiError(parsed.error))))
  }

  /** With the intended middleware a minted token is admitted up to its expiry second, and
      refused with the expiry message afterwards. */
  lemma MintedTokenAdmittedWhenIntended(jwtSecret: string, lib: JwtLibrary, req: Request,
                                        accessToken: string, issuedAt: int, expiry: int, now: int)
    requires IsMintedBearerRequest(jwtSecret, lib, now, req, accessToken, issuedAt, expiry)
    ensures now <= expiry ==> JwtAuthHandlerIntended(jwtSecret, lib, now, req) == PassThrough
    ensures expiry < now ==>
      JwtAuthHandlerIntended(jwtSecret, lib, now, req)
        == HttpError(StatusUnauthorized, Some(Written(StatusUnauthorized, ApiError(AccessTokenExpired))))
  {
  }
}

=== FILE: lib.dfy ===
/** The part of lib/strings.go that the auth handlers depend on: the keyed hash.
    The hash computation itself (HMAC over SHA-1, printed as hex) is foreign and is
    represented by an arbitrary total function of its key and its message. */
module Lib {

  /** The two inputs of an HMAC: the key the MAC is keyed with and the message it authenticates. */
  datatype MacInput = MacInput(key: string, message: string)

  /** HMAC-SHA1 as a hex string, left uninterpreted. */
  type Hmac = MacInput -> string

  /** `HMACSha1(s, k)`: the FIRST argument is the message and the SECOND the key. */
  function HmacSha1(hmac: Hmac, s: string, k: string): string
  {
    hmac(MacInput(k, s))
  }
}

=== FILE: oauth.dfy ===
/** The two OAuth handshake handlers of handler/auth.go: `GetOauthHandler` (start) and
    `GetOauthVerifyHandler` (verify), over a shared `TokenStorage`. The provider
    (`AuthCodeURL`, `Exchange`), jwt-go's signer, the random source and the clock are inputs. */
module Oauth {
  import opened Wrappers
  import opened Lib
  import opened Api
  import opened TokenStorage
  import opened Csrf
  import opened Jwt

  /** Go durations are counted in nanoseconds. */
  const Second := 1_000_000_000
  const Minute := 60 * Second
  const DefaultTokenExpiration := 5 * Minute

  const AuthUrlMessage := "please use this url to authenticate with facebook"
  const NoCodeMessage := "no oauth code was provided"
  const NoStateMessage := "no state was provided"
  const ExpiredMessage := "oauth code has expired, try again"
  const CsrfMessage := "CSRF attack detected"
  const SignErrorPrefix := "could not sign token: "

  /** `oauth2.AccessTypeOffline`, the only option the start handler passes. */
  datatype AccessType = AccessTypeOffline

  /** What `AuthCodeURL(state, opts)` is asked to put into the provider URL; rendering the
      URL string is the provider library's business. */
  datatype AuthCodeUrl = AuthCodeUrl(state: string, accessType: AccessType)

  /** The provider's token: its access token and its expiry in unix seconds. */
  datatype ProviderToken = ProviderToken(accessToken: string, expiry: int)

  /** `conf.Exchange(ctx, code)`: the provider's answer for an authorization code. */
  type Exchange = string -> Result<ProviderToken, string>

  /** `jwtToken.SignedString(key)`: jwt-go's compact serialisation signed with `key`. */
  type Signer = (Token, string) -> Result<string, string>

  /** The JSON bodies the handlers answer with. */
  datatype Body =
    | ErrorBody(error: ApiError)
    | UrlBody(url: AuthCodeUrl, message: string)
    | TokenBody(jwtToken: string, expires: int)

  datatype Response = Json(status: int, body: Body)

  /** The request values the verify handler reads: query `code`, query `state` and the
      `error_message` path parameter ("" when absent). */
  datatype VerifyRequest = VerifyRequest(code: string, state: string, errorMessage: string)

  /** The session identifier a store holds for `state`: a hit whose value is a string. */
  function StoredSession(entries: map<string, Entry>, state: string): (sessionId: Option<string>)
    ensures sessionId.Some? <==> state in entries && entries[state].value.Str?
    ensures sessionId.Some? ==> entries[state].value == Str(sessionId.value)
  {
    if state in entries && entries[state].value.Str? then Some(entries[state].value.s) else None
  }

  /** Whether a verify request gets past the two presence checks, after which it consumes its state. */
  predicate ConsumesState(q: VerifyRequest)
  {
    q.code != "" && q.state != ""
  }

  function Gone(message: string): Response
  {
    Json(StatusGone, ErrorBody(ApiError(message)))
  }

  /** `GetOauthHandler`: mint a session id, derive its CSRF token, remember token -> session id
      for five minutes, and answer with the provider URL whose state is that token. */
  method Start(store: Store, hmac: Hmac, sessionSecret: string, random: Result<string, string>)
    returns (resp: Response)
    modifies store
    ensures random.Failure? ==>
      && resp == Json(StatusInternalServerError, ErrorBody(ApiError(random.error)))
      && store.entries == old(store.entries) && store.ops == old(store.ops)
    ensures random.Success? ==>
      var csrf := GenerateCsrfToken(hmac, random.value, sessionSecret);
      && resp == Json(StatusOK, UrlBody(AuthCodeUrl(csrf, AccessTypeOffline), AuthUrlMessage))
      && store.entries == old(store.entries)[csrf := Entry(Str(random.value), DefaultTokenExpiration)]
      && store.ops == old(store.ops) + [SetOp(csrf, Str(random.value), DefaultTokenExpiration)]
  {
    if random.Failure? {
      return Json(StatusInternalServerError, ErrorBody(ApiError(random.error)));
    }
    var sessionId := random.value;
    var csrfToken := GenerateCsrfToken(hmac, sessionId, sessionSecret);
    var url := AuthCodeUrl(csrfToken, AccessTypeOffline);
    resp := Json(StatusOK, UrlBody(url, AuthUrlMessage));
    // deferred in the handler: runs as it returns
    store.Set(csrfToken, Str(sessionId), DefaultTokenExpiration);
  }

  /** What `GetOauthVerifyHandler` captures besides the store: the MAC, the provider's
      exchange, jwt-go's signer and the two secrets. */
  datatype VerifyConfig = VerifyConfig(
    hmac: Hmac, exchange: Exchange, sign: Signer, jwtSecret: string, sessionSecret: string)

  /** The answer of the verify handler for a request, given the store's entries before it. */
  function VerifyResponse(c: VerifyConfig, entries: map<string, Entry>, now: int, q: VerifyRequest): (resp: Response)
    // the two presence checks answer 400
    ensures q.code == "" ==>
      resp == Json(StatusBadRequest, ErrorBody(ApiError(if q.errorMessage == "" then NoCodeMessage else q.errorMessage)))
    ensures q.code != "" && q.state == "" ==>
      resp == Json(StatusBadRequest, ErrorBody(ApiError(NoStateMessage)))
    // a miss or a non-string value is "expired"; a hit with the wrong token is "CSRF", never "expired"
    ensures ConsumesState(q) ==>
      (resp == Gone(ExpiredMessage) <==> StoredSession(entries, q.state).None?)
    ensures ConsumesState(q) ==>
      (resp == Gone(CsrfMessage) <==>
        StoredSession(entries, q.state).Some?
        && !IsCsrfTokenMatchSession(c.hmac, q.state, StoredSession(entries, q.state).value, c.sessionSecret))
    // past the CSRF check: provider error, signing error, or the signed token
    ensures (ConsumesState(q) && StoredSession(entries, q.state).Some?
             && IsCsrfTokenMatchSession(c.hmac, q.state, StoredSession(entries, q.state).value, c.sessionSecret)) ==>
      match c.exchange(q.code)
      case Failure(e) => resp == Json(StatusInternalServerError, ErrorBody(ApiError(e)))
      case Success(t) =>
        match c.sign(IssuedToken(t.accessToken, now, t.expiry), GetJwtSignature(c.jwtSecret, t.accessToken))
        case Failure(e) => resp == Json(StatusInternalServerError, ErrorBody(ApiError(SignErrorPrefix + e)))
        case Success(signed) => resp == Json(StatusOK, TokenBody(signed, t.expiry))
  {
    if q.code == "" then
      Json(StatusBadRequest, ErrorBody(ApiError(if q.errorMessage == "" then NoCodeMessage else q.errorMessage)))
    else if q.state == "" then
      Json(StatusBadRequest, ErrorBody(ApiError(NoStateMessage)))
    else
      match StoredSession(entries, q.state)
      case None => Gone(ExpiredMessage)
      case Some(sessionId) =>
        if !IsCsrfTokenMatchSession(c.hmac, q.state, sessionId, c.sessionSecret) then Gone(CsrfMessage)
        else
          match c.exchange(q.code)
          case Failure(e) => Json(StatusInternalServerError, ErrorBody(ApiError(e)))
          case Success(t) =>
            match c.sign(IssuedToken(t.accessToken, now, t.expiry), GetJwtSignature(c.jwtSecret, t.accessToken))
            case Failure(e) => Json(StatusInternalServerError, ErrorBody(ApiError(SignErrorPrefix + e)))
            case Success(signed) => Json(StatusOK, TokenBody(signed, t.expiry))
  }

  /** The store's entries after the verify handler: a request that passed the presence checks
      has its state removed, whatever the outcome; any other request changes nothing. */
  function VerifyStore(entries: map<string, Entry>, q: VerifyRequest): (after: map<string, Entry>)
    ensures q.state !in after <==> ConsumesState(q) || q.state !in entries
    ensures forall k :: k != q.state ==> (k in after <==> k in entries)
    ensures forall k :: k in after ==> after[k] == entries[k]
  {
    if ConsumesState(q) then entries - {q.state} else entries
  }

  /** `GetOauthVerifyHandler`: check `code` and `state`, consume the state entry, check the
      CSRF token against the stored session, exchange the code and sign a bearer token. */
  method Verify(store: Store, c: VerifyConfig, now: int, q: VerifyRequest) returns (resp: Response)
    modifies store
    ensures resp == VerifyResponse(c, old(store.entries), now, q)
    ensures store.entries == VerifyStore(old(store.entries), q)
    ensures store.ops == old(store.ops) + (if ConsumesState(q) then [DeleteOp(q.state)] else [])
  {
    if q.code == "" {
      var errorMessage := if q.errorMessage == "" then NoCodeMessage else q.errorMessage;
      return Json(StatusBadRequest, ErrorBody(ApiError(errorMessage)));
    }
    if q.state == "" {
      return Json(StatusBadRequest, ErrorBody(ApiError(NoStateMessage)));
    }
    var cached, ok := store.Get(q.state);
    if !ok || !cached.Str? {
      resp := Gone(ExpiredMessage);
    } else if !IsCsrfTokenMatchSession(c.hmac, q.state, cached.s, c.sessionSecret) {
      resp := Gone(CsrfMessage);
    } else {
      match c.exchange(q.code)
      case Failure(e) =>
        resp := Json(StatusInternalServerError, ErrorBody(ApiError(e)));
      case Success(t) =>
        var token := IssuedToken(t.accessToken, now, t.expiry);
        var key := GetJwtSignature(c.jwtSecret, t.accessToken);
        match c.sign(token, key)
        case Failure(e) =>
          resp := Json(StatusInternalServerError, ErrorBody(ApiError(SignErrorPrefix + e)));
        case Success(signed) =>
          resp := Json(StatusOK, TokenBody(signed, t.expiry));
    }
    // deferred in the handler: runs as it returns, once the state was seen to be non-empty
    store.Delete(q.state);
  }

  /** The answers to a run of verify requests handled one after another on the same store. */
  function VerifyRun(c: VerifyConfig, entries: map<string, Entry>, now: int, qs: seq<VerifyRequest>): (rs: seq<Response>)
    ensures |rs| == |qs|
    ensures qs != [] ==> rs[0] == VerifyResponse(c, entries, now, qs[0])
    decreases |qs|
  {
    if qs == [] then []
    else [VerifyResponse(c, entries, now, qs[0])] + VerifyRun(c, VerifyStore(entries, qs[0]), now, qs[1..])
  }

  /** Once a state has no entry, every later attempt that presents it is answered "expired",
      whatever other requests (for other states, or without a code) are handled in between. */
  lemma {:induction false} AbsentStateAlwaysExpired(
    c: VerifyConfig, entries: map<string, Entry>, now: int, qs: seq<VerifyRequest>, state: string)
    requires state !in entries
    ensures forall i :: 0 <= i < |qs| && qs[i].state == state && ConsumesState(qs[i]) ==>
      VerifyRun(c, entries, now, qs)[i] == Gone(ExpiredMessage)
    decreases |qs|
  {
    if qs != [] {
      var rest := VerifyStore(entries, qs[0]);
      assert state !in rest;
      AbsentStateAlwaysExpired(c, rest, now, qs[1..], state);
      var rs := VerifyRun(c, entries, now, qs);
      assert rs == [VerifyResponse(c, entries, now, qs[0])] + VerifyRun(c, rest, now, qs[1..]);
      forall i | 0 <= i < |qs| && qs[i].state == state && ConsumesState(qs[i])
        ensures rs[i] == Gone(ExpiredMessage)
      {
        if i > 0 {
          assert qs[1..][i - 1] == qs[i];
          assert rs[i] == VerifyRun(c, rest, now, qs[1..])[i - 1];
        }
      }
    }
  }

  /** A state authorises at most one completion: in any run of verify requests, an attempt that
      presents a state an earlier attempt already presented is answered "expired", whatever the
      earlier attempt's outcome and whatever requests came in between. */
  lemma {:induction false} StateUsedAtMostOnce(
    c: VerifyConfig, entries: map<string, Entry>, now: int, qs: seq<VerifyRequest>)
    ensures forall i, j :: (0 <= i < j < |qs| && ConsumesState(qs[i]) && ConsumesState(qs[j])
                            && qs[i].state == qs[j].state) ==>
      VerifyRun(c, entries, now, qs)[j] == Gone(ExpiredMessage)
    decreases |qs|
  {
    if qs != [] {
      var rest := VerifyStore(entries, qs[0]);
      StateUsedAtMostOnce(c, rest, now, qs[1..]);
      if ConsumesState(qs[0]) {
        AbsentStateAlwaysExpired(c, rest, now, qs[1..], qs[0].state);
      }
      var rs := VerifyRun(c, entries, now, qs);
      assert rs == [VerifyResponse(c, entries, now, qs[0])] + VerifyRun(c, rest, now, qs[1..]);
      forall i, j | 0 <= i < j < |qs| && ConsumesState(qs[i]) && ConsumesState(qs[j]) && qs[i].state == qs[j].state
        ensures rs[j] == Gone(ExpiredMessage)
      {
        assert qs[1..][j - 1] == qs[j];
        assert rs[j] == VerifyRun(c, rest, now, qs[1..])[j - 1];
        if i > 0 {
          assert qs[1..][i - 1] == qs[i];
        }
      }
    }
  }

  /** jwt-go's signer and its decoder agree on the tokens the verify handler mints: such a
      token, once signed, is a non-empty string that decodes to the minted token, and it
      validates with the key it was signed with at every clock reading within its lifetime. */
  ghost predicate Coherent(sign: Signer, lib: JwtLibrary)
  {
    && (forall a: string, i: int, e: int, key: string :: sign(IssuedToken(a, i, e), key).Success? ==>
          && sign(IssuedToken(a, i, e), key).value != ""
          && lib.decode(sign(IssuedToken(a, i, e), key).value) == Success(IssuedToken(a, i, e)))
    && (forall a: string, i: int, e: int, key: string, now: int ::
          sign(IssuedToken(a, i, e), key).Success? && WithinLifetime(IssuedClaims(a, i, e), now) ==>
          lib.validate(sign(IssuedToken(a, i, e), key).value, key, now).None?)
  }

  /** The request a client makes with the token the verify handler answered with. */
  function BearerRequest(jwtToken: string): Request
  {
    Request("", Bearer + " " + jwtToken)
  }

  /** The token a successful verify answers with, sent as `Bearer <token>` at any later clock
      reading, is a request carrying the token minted for the provider's answer `t`. */
  lemma VerifiedTokenIsMinted(
    c: VerifyConfig, lib: JwtLibrary, entries: map<string, Entry>, now: int, q: VerifyRequest, later: int)
    returns (t: ProviderToken)
    requires Coherent(c.sign, lib)
    requires VerifyResponse(c, entries, now, q).body.TokenBody?
    ensures t.expiry == VerifyResponse(c, entries, now, q).body.expires
    ensures IsMintedBearerRequest(c.jwtSecret, lib, later, BearerRequest(VerifyResponse(c, entries, now, q).body.jwtToken),
                                  t.accessToken, now, t.expiry)
  {
    t := c.exchange(q.code).value;
    var token := IssuedToken(t.accessToken, now, t.expiry);
    var key := GetJwtSignature(c.jwtSecret, t.accessToken);
    var signed := VerifyResponse(c, entries, now, q).body.jwtToken;
    assert c.sign(token, key) == Success(signed);
    assert BearerToken(BearerRequest(signed).authorization) == Some(signed);
    if WithinLifetime(IssuedClaims(t.accessToken, now, t.expiry), later) {
      assert lib.validate(signed, key, later).None?;
    }
  }

  /** End to end, with the middleware as written: the token a successful verify answers with is
      refused with 401 on a protected route, and with no body even before its expiry. */
  lemma VerifiedTokenRefusedAsWritten(
    c: VerifyConfig, lib: JwtLibrary, entries: map<string, Entry>, now: int, q: VerifyRequest, later: int)
    requires Coherent(c.sign, lib)
    requires VerifyResponse(c, entries, now, q).body.TokenBody?
    ensures var resp := VerifyResponse(c, entries, now, q);
      var gate := JwtAuthHandler(c.jwtSecret, lib, later, BearerRequest(resp.body.jwtToken));
      && gate.HttpError?
      && (later <= resp.body.expires ==> gate == HttpError(StatusUnauthorized, None))
  {
    var t := VerifiedTokenIsMinted(c, lib, entries, now, q, later);
    MintedTokenRefusedAsWritten(c.jwtSecret, lib, BearerRequest(VerifyResponse(c, entries, now, q).body.jwtToken),
                                t.accessToken, now, t.expiry, later);
  }

  /** End to end, with the middleware as intended: the token a successful verify answers with is
      admitted on a protected route up to its `expires` second, and refused as expired after it. */
  lemma VerifiedTokenAdmittedWhenIntended(
    c: VerifyConfig, lib: JwtLibrary, entries: map<string, Entry>, now: int, q: VerifyRequest, later: int)
    requires Coherent(c.sign, lib)
    requires VerifyResponse(c, entries, now, q).body.TokenBody?
    ensures var resp := VerifyResponse(c, entries, now, q);
      var gate := JwtAuthHandlerIntended(c.jwtSecret, lib, later, BearerRequest(resp.body.jwtToken));
      && (later <= resp.body.expires ==> gate == PassThrough)
      && (resp.body.expires < later ==>
            gate == HttpError(StatusUnauthorized, Some(Written(StatusUnauthorized, ApiError(AccessTokenExpired)))))
  {
    var t := VerifiedTokenIsMinted(c, lib, entries, now, q, later);
    MintedTokenAdmittedWhenIntended(c.jwtSecret, lib, BearerRequest(VerifyResponse(c, entries, now, q).body.jwtToken),
                                    t.accessToken, now, t.expiry, later);
  }

  /** A state is good for one verify attempt: whatever the first attempt's outcome, a second
      attempt with the same state is answered 410 "expired". */
  method Replay(store: Store, c: VerifyConfig, now: int, later: int, q: VerifyRequest)
    returns (first: Response, second: Response)
    requires ConsumesState(q)
    modifies store
    ensures first == VerifyResponse(c, old(store.entries), now, q)
    ensures second == Gone(ExpiredMessage)
    ensures q.state !in store.entries
    ensures store.entries == old(store.entries) - {q.state}
    ensures store.ops == old(store.ops) + [DeleteOp(q.state), DeleteOp(q.state)]
  {
    first := Verify(store, c, now, q);
    second := Verify(store, c, later, q);
  }

  /** The full handshake: start, then verify with the state from the URL. When the provider and
      the signer succeed, the answer is 200 with the signed token, its `expires` equals the `exp`
      claim, the state entry is gone, and the minted token passes the key function until `exp`. */
  method Handshake(store: Store, c: VerifyConfig, sessionId: string, code: string, errorMessage: string, now: int)
    returns (started: Response, verified: Response)
    requires code != ""
    // an HMAC-SHA1 hex digest has 40 characters, so the state is never empty
    requires GenerateCsrfToken(c.hmac, sessionId, c.sessionSecret) != ""
    requires c.exchange(code).Success?
    modifies store
    ensures started.status == StatusOK && started.body.UrlBody?
    ensures var state := started.body.url.state;
      && state == GenerateCsrfToken(c.hmac, sessionId, c.sessionSecret)
      && state !in store.entries
      && store.entries == old(store.entries) - {state}
      && store.ops == old(store.ops) + [SetOp(state, Str(sessionId), DefaultTokenExpiration), DeleteOp(state)]
    ensures var t := c.exchange(code).value;
      var token := IssuedToken(t.accessToken, now, t.expiry);
      var key := GetJwtSignature(c.jwtSecret, t.accessToken);
      match c.sign(token, key)
      case Success(signed) =>
        && verified == Json(StatusOK, TokenBody(signed, t.expiry))
        && ExpirationTime(token.claims) == verified.body.expires
        && (now <= t.expiry ==> KeyFunc(c.jwtSecret, now, token) == Success(key))
      case Failure(e) =>
        verified == Json(StatusInternalServerError, ErrorBody(ApiError(SignErrorPrefix + e)))
  {
    started := Start(store, c.hmac, c.sessionSecret, Success(sessionId));
    var state := started.body.url.state;
    MintedTokenMatches(c.hmac, sessionId, c.sessionSecret);
    verified := Verify(store, c, now, VerifyRequest(code, state, errorMessage));
    var t := c.exchange(code).value;
    if now <= t.expiry {
      IssuedTokenAccepted(c.jwtSecret, t.accessToken, now, t.expiry, now);
    }
  }
}

=== FILE: token_storage.dfy ===
/** The `TokenStorage` interface the handlers share: an expiring key-value cache whose
    concrete implementation lives outside the repository. The model keeps the entries and,
    as a ghost log, the sequence of mutating calls made on the store. */
module TokenStorage {

  /** A stored value. The interface accepts any value; the handlers only ever store strings,
      but a lookup must still be ready for a value that is not one (a Go `nil` included). */
  datatype Value = Str(s: string) | NotString

  /** An entry with the time-to-live it was stored with (a Go duration, in nanoseconds). */
  datatype Entry = Entry(value: Value, ttl: int)

  /** A mutating call on the store. */
  datatype Op = SetOp(key: string, value: Value, ttl: int) | DeleteOp(key: string)

  class Store {
    var entries: map<string, Entry>
    ghost var ops: seq<Op>

    constructor ()
      ensures entries == map[] && ops == []
    {
      entries := map[];
      ops := [];
    }

    /** `Set(k, x, d)`: stores `x` under `k`, replacing any earlier entry. */
    method Set(k: string, x: Value, d: int)
      modifies this
      ensures entries == old(entries)[k := Entry(x, d)]
      ensures ops == old(ops) + [SetOp(k, x, d)]
    {
      entries := entries[k := Entry(x, d)];
      ops := ops + [SetOp(k, x, d)];
    }

    /** `Get(k)`: the stored value and whether there was one; a miss yields a non-string. */
    method Get(k: string) returns (x: Value, found: bool)
      ensures found <==> k in entries
      ensures found ==> x == entries[k].value
      ensures !found ==> x == NotString
    {
      found := k in entries;
      x := if found then entries[k].value else NotString;
    }

    /** `Delete(k)`: removes the entry for `k`, if any, and nothing else. */
    method Delete(k: string)
      modifies this
      ensures entries == old(entries) - {k}
      ensures ops == old(ops) + [DeleteOp(k)]
    {
      entries := entries - {k};
      ops := ops + [DeleteOp(k)];
    }
  }
}

=== FILE: wrappers.dfy ===
/** Optional values and results that carry an error message, as Go's `(value, ok)` and
    `(value, err)` pairs are used by the auth handlers. */
module Wrappers {

  datatype Option<+T> = None | Some(value: T)

  datatype Result<+T, +E> = Success(value: T) | Failure(error: E)
}
